=== FILE: README.md ===
# Contract-risk analysis: a Dafny model

This project models the logic core of a small Thai contract-review web app. It has three parts.

- **The `analyze-document` edge function.** It takes a document (an image as a base64 data URL, or plain text), builds a two-part prompt for the language-model provider and maps the provider's HTTP status to a response. It then turns the model's reply into an analysis record. The reply is recovered through a fixed chain: direct parse, parse after cleaning, parse of the greedy `{…}` span, and finally a fixed fallback record.
- **The demo page.** A four-step flow (upload, preview, analyzing, result) over five pieces of component state. A file selection, the file reader's load event, the call to the edge function and a reset drive it.
- **The result card.** It merges its props over sample data, defaults the score with `|| 0`, and colours and labels scores and risk items by tier and level.

Modules:
- `Wrappers`: `Option`.
- `JsonValue`: JSON values, member lookup (the last binding wins), JavaScript truthiness.
- `TextOps`: JavaScript whitespace and `trim`, and the three regex replaces of the cleaning step, written out as left-to-right non-overlapping rewrites. It also has the greedy brace span, the `split("base64,")[1]` payload extraction and decimal rendering.
- `ReplyRecovery`: the cleaning method, the recovery chain and the fallback record.
- `AnalyzeDocument`: the `serve` handler.
- `RiskDisplay`: the score-tier and risk-level functions. The demo page and the result card define them with identical bodies, so they are modelled once.
- `ResultCard`: the result card.
- `DemoPage`: the page state as a class.

Parameters stand in for what the model does not contain:
- JSON parsing is `parse: string -> Option<Json>` (`None` = `JSON.parse` throws).
- The provider is `provider: seq<Part> -> ProviderOutcome` (a thrown fetch, or a status with error text and the optional reply text).
- The API key is a boolean.
- The system prompt is an opaque string.

Some behaviours of the code are easy to assume otherwise; the model follows the code:
- A provider 401 becomes a 500 carrying the status and error text. No separate authentication answer exists.
- A failing `fetch` is not a category of its own. It becomes a 500 whose message is the thrown error's.
- The fallback `documentType` is the Thai "เอกสารทั่วไป" ("general document").
- Cleaning removes only a leading optional quote plus a `json` label, never trailing quotes.
- A reply with no braces at all can still parse directly (for example `42`). The fallback is therefore not forced whenever braces are missing.

## Model

| member | source | states |
|---|---|---|
| JsonValue.Lookup | supabase/functions/analyze-document/index.ts:220 | a member is found exactly when some binding has the key, and the value found is that of the last such binding |
| JsonValue.LookupLast | supabase/functions/analyze-document/index.ts:198-204 | a key bound at position i and nowhere later looks up to the value at i |
| TextOps.SpaceRun | supabase/functions/analyze-document/index.ts:180-181 | `\s*` matches the longest prefix made only of JavaScript whitespace |
| TextOps.TrimStart | supabase/functions/analyze-document/index.ts:183 | drops exactly the leading whitespace run: the result is the suffix after it and does not start with whitespace |
| TextOps.TrimEnd | supabase/functions/analyze-document/index.ts:183 | the result is a prefix of the input, everything after it is whitespace, and it does not end with whitespace |
| TextOps.Trim | supabase/functions/analyze-document/index.ts:183 | the result is a slice of the input with only whitespace outside it and none at either end |
| TextOps.StripJsonFences | supabase/functions/analyze-document/index.ts:180 | removing every ```` ```json ```` fence (any letter case) with its trailing whitespace never lengthens the text; with `JsonFenceAtStart` (a match at the scan position is removed with its white space) and `JsonFenceScanSkips` (text where no match begins is kept) the result is fixed on every input |
| TextOps.StripFences | supabase/functions/analyze-document/index.ts:181 | removing every ```` ``` ```` fence with its trailing whitespace never lengthens the text; with `FenceAtStart` (a fence at the scan position is removed with its white space) and `FenceScanSkips` (text where no fence begins is kept) the result is fixed on every input; `FencesGone` says no fence survives |
| TextOps.StripJsonLabel | supabase/functions/analyze-document/index.ts:182 | the result is a suffix of the input, and any text that starts with neither a quote plus `json` nor a bare `json` is unchanged |
| TextOps.LabelRemoved | supabase/functions/analyze-document/index.ts:182 | a leading quote plus `json` (any letter case) is removed with the white space after it, and a bare leading `json` likewise, and nothing more |
| TextOps.StripJsonFencesSkipsPlain | supabase/functions/analyze-document/index.ts:180 | text without a backtick passes through the fence removal unchanged, whatever follows it |
| TextOps.StripFencesSkipsPlain | supabase/functions/analyze-document/index.ts:181 | text without a backtick passes through the plain fence removal unchanged, whatever follows it |
| TextOps.SpaceRunOf | supabase/functions/analyze-document/index.ts:180 | `\s*` consumes exactly a whitespace run followed by a non-space character or the end |
| TextOps.JsonFenceAtStart | supabase/functions/analyze-document/index.ts:180 | a leading ```` ```json ```` fence in any letter case and all the white space after it are removed, and the scan resumes at the next non-space character |
| TextOps.JsonFenceRemoved | supabase/functions/analyze-document/index.ts:180 | in backtick-free text followed by a ```` ```json ```` fence (any letter case) and white space, the text is kept, the fence and all that white space are removed, and the rest is scanned the same way |
| TextOps.JsonFenceMatches | supabase/functions/analyze-document/index.ts:180 | the lower-case fence text is a match of the case-insensitive pattern |
| TextOps.FenceAtStart | supabase/functions/analyze-document/index.ts:181 | a leading ```` ``` ```` and all the white space after it are removed, and the scan resumes at the next non-space character |
| TextOps.FenceRemoved | supabase/functions/analyze-document/index.ts:181 | in backtick-free text followed by a ```` ``` ```` and white space, the text is kept, the fence and all that white space are removed, and the rest is scanned the same way |
| TextOps.ClosingFenceKept | supabase/functions/analyze-document/index.ts:180 | a bare ```` ``` ```` after backtick-free text is not a ```` ```json ```` fence and survives the first replace |
| TextOps.ShortTextKept | supabase/functions/analyze-document/index.ts:180 | text shorter than ```` ```json ```` cannot contain a match and passes through the first replace unchanged |
| TextOps.ClosingFenceRemoved | supabase/functions/analyze-document/index.ts:181 | a bare ```` ``` ```` after backtick-free text is removed by the second replace, the text before it kept |
| TextOps.FenceFreeSlice | supabase/functions/analyze-document/index.ts:183 | a slice of fence-free text is fence-free |
| TextOps.FencesGone | supabase/functions/analyze-document/index.ts:181 | after the global ```` ``` ```` replace no fence is left anywhere in the text |
| TextOps.FenceFreeKept | supabase/functions/analyze-document/index.ts:181 | text with no three backticks in a row passes through the plain fence replace unchanged, single and double backticks included |
| TextOps.JsonFenceFreeKept | supabase/functions/analyze-document/index.ts:180 | text with no ```` ```json ```` match passes through that replace unchanged, other backticks and bare fences included |
| TextOps.FenceScanSkips | supabase/functions/analyze-document/index.ts:181 | text in which no ```` ``` ```` match begins, stray single or double backticks included, is kept and the scan of what follows is undisturbed, so a fence after an inline backtick is still removed with its white space |
| TextOps.JsonFenceScanSkips | supabase/functions/analyze-document/index.ts:180 | text in which no ```` ```json ```` match (any letter case) begins is kept, other backticks included, and the scan of what follows is undisturbed |
| TextOps.StrayBacktickFenceRemoved | supabase/functions/analyze-document/index.ts:181 | a fence after an inline backtick is removed with the white space after it: a backtick and `a`, then a fence, two spaces and `b`, become a backtick followed by `ab` |
| TextOps.IndexOf | supabase/functions/analyze-document/index.ts:191 | finds the first occurrence of a character, or reports that there is none |
| TextOps.LastIndexOf | supabase/functions/analyze-document/index.ts:191 | finds the last occurrence of a character, or reports that there is none |
| TextOps.BraceSpan | supabase/functions/analyze-document/index.ts:191 | a match exists iff some `}` follows a `{`; it runs from the first `{` to the last `}`, and no `{` lies before it and no `}` after it |
| TextOps.FindFrom | supabase/functions/analyze-document/index.ts:83-84 | finds the first occurrence of the marker at or after a position, or reports that there is none |
| TextOps.Base64Payload | supabase/functions/analyze-document/index.ts:83-85 | without `base64,` the image text is sent unchanged; with it, the payload is the text after the first marker, running up to the next marker or to the end |
| TextOps.NoMarkerWithoutComma | supabase/functions/analyze-document/index.ts:83 | text without a comma contains no `base64,` marker |
| TextOps.DataUriPayload | supabase/functions/analyze-document/index.ts:83-85 | for a data URL `data:<mime>;base64,<data>` whose mime type and data contain no comma, exactly the data is sent |
| TextOps.Decimal | supabase/functions/analyze-document/index.ts:153 | a status renders as a nonempty string of decimal digits with no leading zero except for 0 itself |
| TextOps.DecimalValue | supabase/functions/analyze-document/index.ts:153 | the digits a status renders as denote that status, so the error message carries the status received |
| ReplyRecovery.Cleaned | supabase/functions/analyze-document/index.ts:179-183 | the cleaned reply neither starts nor ends with whitespace |
| ReplyRecovery.CleanReply | supabase/functions/analyze-document/index.ts:179-183 | the three replaces and the trim, applied in order by reassignment, give the cleaned reply |
| ReplyRecovery.CleanedHasNoFence | supabase/functions/analyze-document/index.ts:179-183 | no code fence survives cleaning |
| ReplyRecovery.Candidates | supabase/functions/analyze-document/index.ts:170-194 | the texts tried are the raw reply, then the cleaned reply, then the brace span of the cleaned reply when there is one |
| ReplyRecovery.FirstParsed | supabase/functions/analyze-document/index.ts:170-196 | the result is none exactly when every candidate fails to parse; otherwise it is the parse of a candidate all of whose predecessors failed |
| ReplyRecovery.FallbackRecord | supabase/functions/analyze-document/index.ts:198-214 | an object of five members: the generic document type, risk score 50, the first min(200, length) characters of the raw reply, no risks and the single "consult an expert" recommendation |
| ReplyRecovery.Recover | supabase/functions/analyze-document/index.ts:169-216 | the analysis is either the parse of one of the candidates or the fallback record |
| ReplyRecovery.RecoverAnalysis | supabase/functions/analyze-document/index.ts:169-216 | the nested try/catch assigns the analysis that the recovery chain defines |
| ReplyRecovery.RecoveryOrder | supabase/functions/analyze-document/index.ts:170-216 | strict order: a direct parse wins unmodified; the cleaned text is used only if the raw one failed; the span only if both failed; the fallback only if there is no span or it failed too |
| ReplyRecovery.OpeningFencePass | supabase/functions/analyze-document/index.ts:180 | on a fenced object the first replace removes only the opening fence and the newline after it |
| ReplyRecovery.FencePasses | supabase/functions/analyze-document/index.ts:180-181 | the two fence replaces turn ```` ```json ````, newline, object, newline, ```` ``` ```` into the object followed by a newline |
| ReplyRecovery.LabelAndTrim | supabase/functions/analyze-document/index.ts:182-183 | an object text followed by a newline has no label to strip, and `trim()` gives back the object text |
| ReplyRecovery.CleanedFenced | supabase/functions/analyze-document/index.ts:179-183 | cleaning a ```` ```json ```` fenced, backtick-free object yields exactly the object text |
| ReplyRecovery.FencedReplyRecovered | supabase/functions/analyze-document/index.ts:178-188 | a JSON object wrapped in a ```` ```json ```` fence, where the wrapped text itself fails to parse, is recovered exactly by the cleaning step |
| AnalyzeDocument.BuildParts | supabase/functions/analyze-document/index.ts:74-102 | a document is present iff the image or the text is nonempty; the parts are the prompt with the JSON-only instruction, then the image as `image/jpeg` inline data (the text ignored), else the headed text |
| AnalyzeDocument.ProviderFailure | supabase/functions/analyze-document/index.ts:130-153 | each failed status maps to one answer: 429 to 429, 402 and 403 to 402, 404 to 404, and every other status (401 included) to 500 with a message carrying the status and error text |
| AnalyzeDocument.EnvelopeJson | supabase/functions/analyze-document/index.ts:219-231 | a success envelope reads back with `success` true, the analysis and no `error`; an error envelope reads back with its message and no `analysis` |
| AnalyzeDocument.Serve | supabase/functions/analyze-document/index.ts:8-233 | preflight, unreadable body, missing key (checked before the payload) and missing document are answered without a provider call. The provider is called exactly once iff a document is present, with the parts described. A thrown call, a failed status and empty content each give their error. Success comes exactly from an OK reply with content, with status 200 and the recovered analysis, so a parse failure never surfaces as an error |
| RiskDisplay.GetRiskColor | src/components/AnalysisResult.tsx:54-85 | `high`, `medium` and `low` each get their own whole class set (background, border, text and badge): destructive, warning and success; every other level gets the muted set |
| RiskDisplay.GetRiskLabel | src/components/AnalysisResult.tsx:87-98 | the label is empty exactly for levels other than `high`, `medium` and `low` |
| RiskDisplay.RiskLabelsDistinct | src/components/AnalysisResult.tsx:87-98 | two known levels share a label only if they are the same level |
| RiskDisplay.RiskIcon | src/components/AnalysisResult.tsx:163-167 | the check icon is chosen exactly for `low`; every other level gets the warning triangle |
| RiskDisplay.GetScoreColor | src/components/AnalysisResult.tsx:100-104 | the destructive colour exactly for scores ≥ 70, the warning colour exactly for 40 ≤ score < 70, the success colour exactly below 40 |
| RiskDisplay.GetScoreLabel | src/components/AnalysisResult.tsx:106-110 | the high label exactly for scores ≥ 70, the caution label exactly for 40 ≤ score < 70, the low label exactly below 40 |
| RiskDisplay.ScoreColorMatchesLabel | src/pages/Demo.tsx:163-173 | two scores get the same colour iff they get the same label, so colour and label always pick the same tier |
| RiskDisplay.ScoreColorIsLevelTone | src/components/AnalysisResult.tsx:100-104 | a score's colour is the text colour of the risk level of its tier |
| ResultCard.Merge | src/components/AnalysisResult.tsx:20-52 | each passed prop (an explicit `undefined` included) replaces the sample value, and each omitted prop keeps it |
| ResultCard.TierScore | src/components/AnalysisResult.tsx:134-139 | an undefined score is tiered as 0, and a defined one as itself |
| ResultCard.RowFor | src/components/AnalysisResult.tsx:155-184 | a risk row takes the level's colours, label and icon, the item's title and description, and quotes the clause iff it is a nonempty string |
| ResultCard.RiskRows | src/components/AnalysisResult.tsx:155-189 | one row per risk, in input order |
| ResultCard.Render | src/components/AnalysisResult.tsx:52-189 | the card shows the merged data, colours and labels the score by its tier with a falsy score taken as 0, and renders the merged risks row by row (none when risks are undefined) |
| ResultCard.FalsyScoreIsLowTier | src/components/AnalysisResult.tsx:134-139 | a score given as 0 or left undefined is shown in the low tier |
| ResultCard.SampleCard | src/components/AnalysisResult.tsx:20-49 | with no props the card shows the sample's caution score of 65 and four rows; the first three quote their clauses and show the warning icon, and the last has the check icon and no clause |
| DemoPage.Accepted | src/pages/Demo.tsx:88-106 | an analysis is accepted iff there is no client error, `data.error` is falsy and `data.analysis` is truthy, and the accepted value is that member |
| DemoPage.SuccessEnvelopeAccepted | src/pages/Demo.tsx:93-101 | the edge function's success envelope is accepted exactly when its analysis is truthy |
| DemoPage.ErrorEnvelopeRejected | src/pages/Demo.tsx:93-96 | the edge function's error envelope is never accepted |
| DemoPage.FallbackEnvelopeAccepted | src/pages/Demo.tsx:98-101 | a reply recovered only as the fallback record is still accepted and shown |
| DemoPage.StepIndex | src/pages/Demo.tsx:200 | the index of a step in the step order names that step |
| DemoPage.ProgressMarkers | src/pages/Demo.tsx:199-202 | four markers with the step captions; marker i is current iff it names the step, and active iff the step is marker i or a later one |
| DemoPage.ProgressShape | src/pages/Demo.tsx:199-202 | exactly one marker is current, and the active ones are those up to and including it |
| DemoPage.Demo.constructor | src/pages/Demo.tsx:31-35 | the page starts at the upload step with nothing selected, previewed or analysed and no drag highlight |
| DemoPage.Demo.HandleDragOver | src/pages/Demo.tsx:37-40 | the drag highlight is on |
| DemoPage.Demo.HandleDragLeave | src/pages/Demo.tsx:42-44 | the drag highlight is off |
| DemoPage.Demo.HandleFile | src/pages/Demo.tsx:62-64 | the file is recorded and the step does not change |
| DemoPage.Demo.ReaderLoaded | src/pages/Demo.tsx:66-69 | the data URL becomes the preview and the step becomes preview |
| DemoPage.Demo.HandleDrop | src/pages/Demo.tsx:46-53 | the drag highlight is off, and the first dropped file is taken; an empty drop changes no file |
| DemoPage.Demo.HandleFileInput | src/pages/Demo.tsx:55-60 | the first chosen file is taken; a missing or empty list changes nothing |
| DemoPage.Demo.BeginAnalysis | src/pages/Demo.tsx:73-84 | without a preview nothing changes and nothing is sent; otherwise the step is analyzing and the request carries only the preview as the image, which the edge function always forwards to the provider when its key is set |
| DemoPage.Demo.CompleteAnalysis | src/pages/Demo.tsx:86-111 | an accepted analysis is stored and the step becomes result; any failure returns to preview and keeps the previous analysis and preview; either way the result step always has a truthy analysis |
| DemoPage.Demo.ResetDemo | src/pages/Demo.tsx:114-119 | from any state, back to upload with file, preview and analysis cleared |

## Left out

- The real provider `fetch`, Deno's `serve`, the CORS headers, `Deno.env` and `console` logging are I/O. They are parameters or are omitted, and response headers are not modelled.
- `JSON.parse` is an uninterpreted parameter. `JSON.stringify` of the envelope is modelled only as the JSON value the caller reads back (`EnvelopeJson`).
- The system prompt's wording is an opaque parameter. The request's `generationConfig` and model URL are constants of the `fetch` call and are not modelled.
- Request fields that are not strings (a number or object passed as `imageBase64`) are not modelled. Only absent or string values are.
- A provider body that is not JSON or is `null`, and a reply text that is truthy but not a string, make the handler throw; they are the outcome `Thrown`, answered with 500 and the thrown message. A missing `candidates[0].content.parts[0].text` is an OK reply with no content. The engine's own error messages for these throws are not modelled: they arrive as the `Thrown` message.
- The demo page's `FileReader`, `supabase.functions.invoke`, `toast` messages and the `useCallback` closure are asynchronous browser plumbing. The reader's load event and the invoke result are method parameters, and the toasts are not modelled.
- The demo page's label helpers (`src/pages/Demo.tsx:121-173`) have the same bodies as the result card's and are modelled once, in `RiskDisplay`.
- JSX markup and CSS classes are left out, except as the strings the colour and label functions return.
- The demo page's result view (`src/pages/Demo.tsx:342-440`) applies the same score and level functions to the stored analysis; as JSX it is not modelled beyond those functions and `DemoPage.Demo.Valid`, which guarantees that the view's `analysisResult` guard always holds at the result step.
- The other pages and static components are presentation only and are not part of this model.
- Scores are real numbers. `NaN` (which `|| 0` would also map to 0) is not modelled.
- `content.slice(0, 200)` counts UTF-16 code units. The model counts characters, which agree for the Thai and ASCII text the system handles (all inside the Basic Multilingual Plane).
- JavaScript whitespace (`\s` and `trim`) is one fixed set of code points, the ECMAScript WhiteSpace and LineTerminator characters.

=== FILE: analyze_document.dfy ===
/** The `analyze-document` edge function: it reads the request, builds the
    two-part prompt, consults the model provider once, maps the provider's
    failures to responses and recovers an analysis from the reply. The provider
    exchange and `JSON.parse` are parameters; the API key is a flag saying
    whether it is configured; the system prompt text is the parameter `prompt`. */
module AnalyzeDocument {
  import opened Wrappers
  import opened JsonValue
  import opened TextOps
  import opened ReplyRecovery

  /** One entry of the `parts` list sent to the provider. */
  datatype Part = TextPart(text: string) | InlineData(mimeType: string, data: string)

  /** What `await req.json()` and its destructuring give the handler. */
  datatype RequestBody =
    | Unreadable(message: string)  // the body was not JSON, or was `null`
    | Fields(imageBase64: Option<string>, textContent: Option<string>)

  datatype Request = Preflight | Submit(body: RequestBody)  // OPTIONS, any other method

  /** The provider exchange as the handler observes it. */
  datatype ProviderOutcome =
    | Thrown(message: string)
      // `fetch` rejected, an OK reply body was not JSON or was `null`, or the
      // reply text was truthy but not a string: each makes the handler throw
    | Replied(status: nat, errorText: string, content: Option<string>)
      // `errorText` is read on a non-OK status, `content` is
      // `candidates[0].content.parts[0].text` on an OK one

  datatype Body = NoBody | SuccessBody(analysis: Json) | ErrorBody(error: string)

  datatype Response = Response(status: nat, body: Body)

  const JsonOnlyInstruction: string :=
    "\n\n**สำคัญมาก:** กรุณาตอบกลับเป็น JSON object เท่านั้น ห้ามใส่ ```json หรือข้อความอื่นใดนอกเหนือจาก JSON object ที่สมบูรณ์"
  const DocumentHeader: string := "\n\nเอกสารที่ต้องวิเคราะห์:\n"
  const JpegMime: string := "image/jpeg"

  const MissingKeyMessage: string := "GEMINI_API_KEY is not configured"
  const NoDocumentMessage: string := "ไม่พบข้อมูลเอกสาร กรุณาอัพโหลดรูปภาพหรือข้อความ"
  const RateLimitedMessage: string := "ระบบมีผู้ใช้งานมาก กรุณารอสักครู่แล้วลองใหม่"
  const AccessDeniedMessage: string := "API Key ไม่ถูกต้อง หรือไม่มีสิทธิ์เข้าถึง"
  const ModelUnavailableMessage: string := "Model ไม่พร้อมใช้งาน กรุณาลองใหม่อีกครั้ง"
  const NoContentMessage: string := "No content in AI response"

  /** `if (x)` on an optional string: present and non-empty. */
  predicate IsTruthyText(v: Option<string>)
  {
    v.Some? && |v.value| > 0
  }

  /** `response.ok`. */
  predicate IsOk(status: nat)
  {
    200 <= status <= 299
  }

  /** The message thrown for a provider status without a response of its own. */
  function ProviderErrorMessage(status: nat, errorText: string): string
  {
    "Gemini API error: " + Decimal(status) + " - " + errorText
  }

  /** The `parts` list: the instruction first, then the image when there is
      one (the text is then ignored), else the text; `ok` is false when there
      is neither. */
  method BuildParts(prompt: string, imageBase64: Option<string>, textContent: Option<string>)
    returns (parts: seq<Part>, ok: bool)
    ensures ok <==> IsTruthyText(imageBase64) || IsTruthyText(textContent)
    ensures ok ==> |parts| == 2 && parts[0] == TextPart(prompt + JsonOnlyInstruction)
    ensures ok && IsTruthyText(imageBase64) ==>
              parts[1] == InlineData(JpegMime, Base64Payload(imageBase64.value))
    ensures ok && !IsTruthyText(imageBase64) ==>
              parts[1] == TextPart(DocumentHeader + textContent.value)
  {
    parts := [];
    parts := parts + [TextPart(prompt + JsonOnlyInstruction)];
    if IsTruthyText(imageBase64) {
      var data := Base64Payload(imageBase64.value);
      parts := parts + [InlineData(JpegMime, data)];
      ok := true;
    } else if IsTruthyText(textContent) {
      parts := parts + [TextPart(DocumentHeader + textContent.value)];
      ok := true;
    } else {
      ok := false;
    }
  }

  /** The response for a provider status that is not OK: 429 and 404 are passed
      on, 402 and 403 both become 402, everything else (401 included) is a 500
      whose message carries the status and the provider's error text. */
  function ProviderFailure(status: nat, errorText: string): (r: Response)
    requires !IsOk(status)
    ensures status == 429 <==> r == Response(429, ErrorBody(RateLimitedMessage))
    ensures (status == 402 || status == 403) <==> r == Response(402, ErrorBody(AccessDeniedMessage))
    ensures status == 404 <==> r == Response(404, ErrorBody(ModelUnavailableMessage))
    ensures status != 429 && status != 402 && status != 403 && status != 404 <==>
              r == Response(500, ErrorBody(ProviderErrorMessage(status, errorText)))
  {
    if status == 429 then Response(429, ErrorBody(RateLimitedMessage))
    else if status == 402 || status == 403 then Response(402, ErrorBody(AccessDeniedMessage))
    else if status == 404 then Response(404, ErrorBody(ModelUnavailableMessage))
    else Response(500, ErrorBody(ProviderErrorMessage(status, errorText)))
  }

  /** The JSON text the handler writes, as the caller reads it back. */
  function EnvelopeJson(b: Body): (r: Json)
    ensures b.SuccessBody? ==> Get(r, "success") == Some(JBool(true))
                               && Get(r, "analysis") == Some(b.analysis)
                               && Get(r, "error").None?
    ensures b.ErrorBody? ==> Get(r, "error") == Some(JStr(b.error)) && Get(r, "analysis").None?
    ensures b.NoBody? ==> r == JNull
  {
    match b
    case NoBody => JNull
    case SuccessBody(a) =>
      var fields := [("success", JBool(true)), ("analysis", a)];
      LookupLast(fields, "success", 0);
      JObj(fields)
    case ErrorBody(m) => JObj([("error", JStr(m))])
  }

  /** Does the request reach the provider? */
  predicate Reaches(req: Request, keyConfigured: bool)
  {
    && req.Submit? && req.body.Fields? && keyConfigured
    && (IsTruthyText(req.body.imageBase64) || IsTruthyText(req.body.textContent))
  }

  /** The handler. `sent` is the `parts` list the provider was consulted with,
      `None` when the handler answered without consulting it. */
  method Serve(req: Request, keyConfigured: bool, prompt: string,
               provider: seq<Part> -> ProviderOutcome, parse: string -> Option<Json>)
    returns (resp: Response, sent: Option<seq<Part>>)
    // Answers given before any provider call.
    ensures req.Preflight? ==> resp == Response(200, NoBody)
    ensures req.Submit? && req.body.Unreadable? ==> resp == Response(500, ErrorBody(req.body.message))
    ensures req.Submit? && req.body.Fields? && !keyConfigured ==>
              resp == Response(500, ErrorBody(MissingKeyMessage))
    ensures req.Submit? && req.body.Fields? && keyConfigured && !Reaches(req, keyConfigured) ==>
              resp == Response(400, ErrorBody(NoDocumentMessage))
    // The one provider call and what it is sent.
    ensures sent.Some? <==> Reaches(req, keyConfigured)
    ensures sent.Some? ==>
              |sent.value| == 2 && sent.value[0] == TextPart(prompt + JsonOnlyInstruction)
              && (IsTruthyText(req.body.imageBase64) ==>
                    sent.value[1] == InlineData(JpegMime, Base64Payload(req.body.imageBase64.value)))
              && (!IsTruthyText(req.body.imageBase64) ==>
                    sent.value[1] == TextPart(DocumentHeader + req.body.textContent.value))
    // Answers given from the provider's outcome.
    ensures sent.Some? && provider(sent.value).Thrown? ==>
              resp == Response(500, ErrorBody(provider(sent.value).message))
    ensures sent.Some? && provider(sent.value).Replied? && !IsOk(provider(sent.value).status) ==>
              resp == ProviderFailure(provider(sent.value).status, provider(sent.value).errorText)
    ensures sent.Some? && provider(sent.value).Replied? && IsOk(provider(sent.value).status)
            && !IsTruthyText(provider(sent.value).content) ==>
              resp == Response(500, ErrorBody(NoContentMessage))
    // Success exactly when the provider replied OK with content; parsing never fails it.
    ensures resp.body.SuccessBody? <==>
              sent.Some? && provider(sent.value).Replied? && IsOk(provider(sent.value).status)
              && IsTruthyText(provider(sent.value).content)
    ensures resp.body.SuccessBody? ==>
              resp.status == 200
              && resp.body.analysis == Recover(parse, provider(sent.value).content.value)
    ensures !req.Preflight? && !resp.body.SuccessBody? ==> resp.body.ErrorBody? && resp.status != 200
  {
    sent := None;
    if req.Preflight? {
      return Response(200, NoBody), sent;
    }
    if req.body.Unreadable? {
      return Response(500, ErrorBody(req.body.message)), sent;
    }
    if !keyConfigured {
      return Response(500, ErrorBody(MissingKeyMessage)), sent;
    }
    var parts, ok := BuildParts(prompt, req.body.imageBase64, req.body.textContent);
    if !ok {
      return Response(400, ErrorBody(NoDocumentMessage)), sent;
    }
    sent := Some(parts);
    var outcome := provider(parts);
    if outcome.Thrown? {
      return Response(500, ErrorBody(outcome.message)), sent;
    }
    if !IsOk(outcome.status) {
      return ProviderFailure(outcome.status, outcome.errorText), sent;
    }
    if !IsTruthyText(outcome.content) {
      return Response(500, ErrorBody(NoContentMessage)), sent;
    }
    var analysis := RecoverAnalysis(parse, outcome.content.value);
    resp := Response(200, SuccessBody(analysis));
  }
}

=== FILE: demo_page.dfy ===
/** The demo page: a four-step flow (upload, preview, analyzing, result) held
    in component state and driven by file selection, the file reader's load
    event, the call to the edge function and the reset button. The reader and
    the function call are asynchronous: their results arrive as method arguments. */
module DemoPage {
  import opened Wrappers
  import opened JsonValue
  import opened AnalyzeDocument
  import ReplyRecovery

  datatype Step = Upload | Preview | Analyzing | Result

  /** A selected file; only its identity matters to the flow. */
  datatype File = File(name: string)

  /** What `supabase.functions.invoke` resolves to: a client-side `error`
      (a transport failure or a non-2xx response) or the response's `data`. */
  datatype InvokeReply = InvokeError(message: string) | InvokeData(data: Json)

  /** The analysis the page accepts from a reply, if any: none on a client
      error, none when `data.error` is truthy, otherwise a truthy `data.analysis`. */
  function Accepted(reply: InvokeReply): (r: Option<Json>)
    ensures r.Some? <==> reply.InvokeData? && !TruthyMember(reply.data, "error")
                         && TruthyMember(reply.data, "analysis")
    ensures r.Some? ==> Get(reply.data, "analysis") == r && Truthy(r.value)
  {
    match reply
    case InvokeError(_) => None
    case InvokeData(data) =>
      if TruthyMember(data, "error") then None
      else if TruthyMember(data, "analysis") then Get(data, "analysis")
      else None
  }

  /** A success envelope is accepted exactly when its analysis is truthy. */
  lemma SuccessEnvelopeAccepted(a: Json)
    ensures Accepted(InvokeData(EnvelopeJson(SuccessBody(a)))) == if Truthy(a) then Some(a) else None
  {
  }

  /** An error envelope is never accepted. */
  lemma ErrorEnvelopeRejected(message: string)
    ensures Accepted(InvokeData(EnvelopeJson(ErrorBody(message)))).None?
  {
  }

  /** A reply where nothing parsed still reaches the result step: the fallback
      record is an object, hence truthy. */
  lemma FallbackEnvelopeAccepted(content: string)
    ensures var fallback := ReplyRecovery.FallbackRecord(content);
            Accepted(InvokeData(EnvelopeJson(SuccessBody(fallback)))) == Some(fallback)
  {
  }

  const StepOrder: seq<Step> := [Upload, Preview, Analyzing, Result]
  const StepLabels: seq<string> := ["อัพโหลด", "ตรวจสอบ", "วิเคราะห์", "ผลลัพธ์"]

  /** `["upload", "preview", "analyzing", "result"].indexOf(step)`. */
  function StepIndex(step: Step): (i: nat)
    ensures i < |StepOrder| && StepOrder[i] == step
  {
    match step
    case Upload => 0
    case Preview => 1
    case Analyzing => 2
    case Result => 3
  }

  /** One circle of the progress indicator. */
  datatype Marker = Marker(caption: string, active: bool, current: bool)

  /** The progress indicator: marker `i` is current when it names the step
      the page is on, and active when that step is marker `i` or a later one. */
  function ProgressMarkers(step: Step): (ms: seq<Marker>)
    ensures |ms| == |StepOrder|
    ensures forall i :: 0 <= i < |ms| ==> ms[i].caption == StepLabels[i]
    ensures forall i :: 0 <= i < |ms| ==> (ms[i].current <==> StepOrder[i] == step)
    ensures forall i :: 0 <= i < |ms| ==>
              (ms[i].active <==> exists j :: i <= j < |StepOrder| && StepOrder[j] == step)
  {
    var k := StepIndex(step);
    seq(4, i requires 0 <= i < 4 => Marker(StepLabels[i], i <= k, i == k))
  }

  /** Exactly one marker is current, and the active ones are the markers up to it. */
  lemma ProgressShape(step: Step)
    ensures var ms := ProgressMarkers(step);
            exists k :: 0 <= k < |ms| && ms[k].current
              && (forall i :: 0 <= i < |ms| && i != k ==> !ms[i].current)
              && (forall i :: 0 <= i < |ms| ==> (ms[i].active <==> i <= k))
  {
    var ms := ProgressMarkers(step);
    var k := StepIndex(step);
    assert ms[k].current;
  }

  class Demo {
    var step: Step
    var uploadedFile: Option<File>
    var imagePreview: Option<string>
    var analysisResult: Option<Json>
    var isDragging: bool

    /** The analyzing step always has a preview to send, and the result step
        always has an analysis to show. */
    ghost predicate Valid()
      reads this
    {
      && (step == Analyzing ==> IsTruthyText(imagePreview))
      && (step == Result ==> analysisResult.Some? && Truthy(analysisResult.value))
    }

    constructor ()
      ensures Valid()
      ensures step == Upload && uploadedFile.None? && imagePreview.None?
      ensures analysisResult.None? && !isDragging
    {
      step := Upload;
      uploadedFile := None;
      imagePreview := None;
      analysisResult := None;
      isDragging := false;
    }

    method HandleDragOver()
      requires Valid()
      modifies this`isDragging
      ensures Valid() && isDragging
    {
      isDragging := true;
    }

    method HandleDragLeave()
      requires Valid()
      modifies this`isDragging
      ensures Valid() && !isDragging
    {
      isDragging := false;
    }

    /** `handleFile`: records the file and starts the reader; the step does
        not change until the reader's load event (`ReaderLoaded`). */
    method HandleFile(file: File)
      requires Valid()
      modifies this`uploadedFile
      ensures Valid() && uploadedFile == Some(file)
    {
      uploadedFile := Some(file);
    }

    /** The reader's `onload`: the data URL becomes the preview. */
    method ReaderLoaded(dataUrl: string)
      requires Valid()
      modifies this`imagePreview, this`step
      ensures Valid() && imagePreview == Some(dataUrl) && step == Preview
    {
      imagePreview := Some(dataUrl);
      step := Preview;
    }

    /** `handleDrop`: stops the drag highlight and takes the first dropped file, if any. */
    method HandleDrop(files: seq<File>)
      requires Valid()
      modifies this`isDragging, this`uploadedFile
      ensures Valid() && !isDragging
      ensures |files| > 0 ==> uploadedFile == Some(files[0])
      ensures |files| == 0 ==> uploadedFile == old(uploadedFile)
    {
      isDragging := false;
      if |files| > 0 {
        HandleFile(files[0]);
      }
    }

    /** `handleFileInput`: takes the first chosen file, if the list exists and is not empty. */
    method HandleFileInput(files: Option<seq<File>>)
      requires Valid()
      modifies this`uploadedFile
      ensures Valid()
      ensures files.Some? && |files.value| > 0 ==> uploadedFile == Some(files.value[0])
      ensures !(files.Some? && |files.value| > 0) ==> uploadedFile == old(uploadedFile)
    {
      if files.Some? && |files.value| > 0 {
        HandleFile(files.value[0]);
      }
    }

    /** `analyzeDocument` up to its `await`: without a preview nothing happens;
        otherwise the step becomes analyzing and the request carries the
        preview as `imageBase64` and no `textContent`. */
    method BeginAnalysis() returns (request: Option<RequestBody>)
      requires Valid()
      modifies this`step
      ensures Valid()
      ensures !IsTruthyText(old(imagePreview)) ==> request.None? && step == old(step)
      ensures IsTruthyText(old(imagePreview)) ==>
                step == Analyzing && request == Some(Fields(imagePreview, None))
      ensures request.Some? ==> Reaches(Submit(request.value), true)
    {
      if !IsTruthyText(imagePreview) {
        return None;
      }
      step := Analyzing;
      request := Some(Fields(imagePreview, None));
    }

    /** `analyzeDocument` after its `await`: an accepted analysis is stored and
        shown; any failure returns to the preview step and keeps the previous
        analysis and preview. */
    method CompleteAnalysis(reply: InvokeReply)
      requires Valid()
      modifies this`step, this`analysisResult
      ensures Valid()
      ensures Accepted(reply).Some? ==> analysisResult == Accepted(reply) && step == Result
      ensures Accepted(reply).None? ==> step == Preview && analysisResult == old(analysisResult)
    {
      var accepted := Accepted(reply);
      if accepted.Some? {
        analysisResult := accepted;
        step := Result;
      } else {
        step := Preview;
      }
    }

    /** `resetDemo`: back to the upload step with file, preview and analysis cleared. */
    method ResetDemo()
      requires Valid()
      modifies this`step, this`uploadedFile, this`imagePreview, this`analysisResult
      ensures Valid()
      ensures step == Upload && uploadedFile.None? && imagePreview.None? && analysisResult.None?
    {
      step := Upload;
      uploadedFile := None;
      imagePreview := None;
      analysisResult := None;
    }
  }
}

=== FILE: json_value.dfy ===
/** JSON values as JavaScript sees them after `JSON.parse`, with property lookup
    and the truthiness test that `if (x)` and `x?.y` apply. */
module JsonValue {
  import opened Wrappers

  /** An object keeps its members in insertion order, as a JavaScript object does. */
  datatype Json =
    | JNull
    | JBool(b: bool)
    | JNum(n: real)
    | JStr(str: string)
    | JArr(items: seq<Json>)
    | JObj(fields: seq<(string, Json)>)

  /** The value bound to `key`; when a key is bound twice the later binding wins,
      as with `JSON.parse` and with object spread. */
  function Lookup(fields: seq<(string, Json)>, key: string): (r: Option<Json>)
    ensures r.None? <==> forall i :: 0 <= i < |fields| ==> fields[i].0 != key
    ensures r.Some? ==> exists i :: 0 <= i < |fields| && fields[i] == (key, r.value)
                          && forall j :: i < j < |fields| ==> fields[j].0 != key
  {
    if |fields| == 0 then None
    else if fields[|fields| - 1].0 == key then Some(fields[|fields| - 1].1)
    else Lookup(fields[..|fields| - 1], key)
  }

  /** The last binding of `key` is the one found. */
  lemma {:induction false} LookupLast(fields: seq<(string, Json)>, key: string, i: nat)
    requires i < |fields| && fields[i].0 == key
    requires forall j :: i < j < |fields| ==> fields[j].0 != key
    ensures Lookup(fields, key) == Some(fields[i].1)
  {
    if i < |fields| - 1 {
      LookupLast(fields[..|fields| - 1], key, i);
    }
  }

  /** `v?.[key]`: a property of an object; `undefined` for anything else. */
  function Get(v: Json, key: string): Option<Json>
  {
    if v.JObj? then Lookup(v.fields, key) else None
  }

  /** JavaScript truthiness of a JSON value (NaN cannot come out of `JSON.parse`). */
  predicate Truthy(v: Json)
  {
    match v
    case JNull => false
    case JBool(b) => b
    case JNum(n) => n != 0.0
    case JStr(s) => |s| > 0
    case JArr(_) => true
    case JObj(_) => true
  }

  /** `if (v?.key)`: the member is present and truthy. */
  predicate TruthyMember(v: Json, key: string)
  {
    Get(v, key).Some? && Truthy(Get(v, key).value)
  }
}

=== FILE: reply_recovery.dfy ===
/** Recovery of the analysis record from the provider's reply text: a direct
    parse, a parse of the cleaned text, a parse of the greedy `{...}` span of the
    cleaned text, and finally a fixed fallback record. `JSON.parse` is the
    parameter `parse`: `None` where it throws, `Some(v)` where it returns `v`. */
module ReplyRecovery {
  import opened Wrappers
  import opened JsonValue
  import opened TextOps

  const GenericDocumentType: string := "เอกสารทั่วไป"
  const FallbackRiskScore: real := 50.0
  const SummaryLimit: nat := 200
  const ConsultExpert: string := "กรุณาปรึกษาผู้เชี่ยวชาญเพิ่มเติม"

  /** The reply after the three replaces and `trim()`: no surrounding white space. */
  function Cleaned(content: string): (r: string)
    ensures |r| == 0 || (!IsJsSpace(r[0]) && !IsJsSpace(r[|r| - 1]))
  {
    Trim(StripJsonLabel(StripFences(StripJsonFences(content))))
  }

  /** `cleanContent`, reassigned step by step as the handler does. */
  method CleanReply(content: string) returns (clean: string)
    ensures clean == Cleaned(content)
  {
    clean := content;
    clean := StripJsonFences(clean);
    clean := StripFences(clean);
    clean := StripJsonLabel(clean);
    clean := Trim(clean);
  }

  /** Cleaning removes every fence: no three backticks in a row survive it. */
  lemma CleanedHasNoFence(content: string)
    ensures FenceFree(Cleaned(content))
  {
    var a := StripFences(StripJsonFences(content));
    FencesGone(StripJsonFences(content));
    var b := StripJsonLabel(a);
    FenceFreeSlice(a, |a| - |b|, |a|);
    var i, j :| 0 <= i <= j <= |b| && Cleaned(content) == b[i..j];
    FenceFreeSlice(b, i, j);
  }

  /** The texts handed to `JSON.parse`, in the order the handler tries them. */
  function Candidates(content: string): (r: seq<string>)
    ensures 2 <= |r| <= 3 && r[0] == content && r[1] == Cleaned(content)
    ensures |r| == 3 <==> BraceSpan(Cleaned(content)).Some?
    ensures |r| == 3 ==> r[2] == BraceSpan(Cleaned(content)).value
  {
    var clean := Cleaned(content);
    var span := BraceSpan(clean);
    [content, clean] + (if span.Some? then [span.value] else [])
  }

  /** The value of the first text that parses; later texts are not consulted. */
  function FirstParsed(parse: string -> Option<Json>, texts: seq<string>): (r: Option<Json>)
    ensures r.None? <==> forall k :: 0 <= k < |texts| ==> parse(texts[k]).None?
    ensures r.Some? ==> exists k :: 0 <= k < |texts| && parse(texts[k]) == r
                          && forall j :: 0 <= j < k ==> parse(texts[j]).None?
  {
    if |texts| == 0 then None
    else if parse(texts[0]).Some? then parse(texts[0])
    else
      var r := FirstParsed(parse, texts[1..]);
      assert forall k :: 1 <= k < |texts| ==> texts[k] == texts[1..][k - 1];
      r
  }

  /** The record returned when nothing parses. */
  function FallbackRecord(content: string): (r: Json)
    ensures r.JObj? && |r.fields| == 5
    ensures Get(r, "documentType") == Some(JStr(GenericDocumentType))
    ensures Get(r, "riskScore") == Some(JNum(50.0))
    ensures Get(r, "summary").Some? && Get(r, "summary").value.JStr?
    ensures var summary := Get(r, "summary").value.str;
            summary <= content && |summary| == Min(SummaryLimit, |content|)
    ensures Get(r, "risks") == Some(JArr([]))
    ensures Get(r, "recommendations") == Some(JArr([JStr(ConsultExpert)]))
  {
    var fields := [("documentType", JStr(GenericDocumentType)),
                   ("riskScore", JNum(FallbackRiskScore)),
                   ("summary", JStr(content[..Min(SummaryLimit, |content|)])),
                   ("risks", JArr([])),
                   ("recommendations", JArr([JStr(ConsultExpert)]))];
    LookupLast(fields, "documentType", 0);
    LookupLast(fields, "riskScore", 1);
    LookupLast(fields, "summary", 2);
    LookupLast(fields, "risks", 3);
    LookupLast(fields, "recommendations", 4);
    JObj(fields)
  }

  /** The analysis the handler returns for a non-empty reply: the first successful
      parse, unmodified, or else the fallback record. */
  function Recover(parse: string -> Option<Json>, content: string): (r: Json)
    ensures r == FallbackRecord(content)
            || exists k :: 0 <= k < |Candidates(content)| && parse(Candidates(content)[k]) == Some(r)
  {
    match FirstParsed(parse, Candidates(content))
    case Some(v) => v
    case None => FallbackRecord(content)
  }

  /** The nested try/catch of the handler that assigns `analysisResult`. */
  method RecoverAnalysis(parse: string -> Option<Json>, content: string) returns (analysis: Json)
    ensures analysis == Recover(parse, content)
  {
    var direct := parse(content);
    if direct.Some? {
      analysis := direct.value;
    } else {
      var clean := CleanReply(content);
      var cleaned := parse(clean);
      if cleaned.Some? {
        analysis := cleaned.value;
      } else {
        var span := BraceSpan(clean);
        if span.Some? {
          var extracted := parse(span.value);
          if extracted.Some? {
            analysis := extracted.value;
          } else {
            analysis := FallbackRecord(content);
          }
        } else {
          analysis := FallbackRecord(content);
        }
      }
    }
    RecoveryOrder(parse, content);
  }

  /** The stages run in strict order and the first success wins. */
  lemma RecoveryOrder(parse: string -> Option<Json>, content: string)
    ensures parse(content).Some? ==> Recover(parse, content) == parse(content).value
    ensures parse(content).None? && parse(Cleaned(content)).Some? ==>
              Recover(parse, content) == parse(Cleaned(content)).value
    ensures parse(content).None? && parse(Cleaned(content)).None?
            && BraceSpan(Cleaned(content)).Some? && parse(BraceSpan(Cleaned(content)).value).Some? ==>
              Recover(parse, content) == parse(BraceSpan(Cleaned(content)).value).value
    ensures parse(content).None? && parse(Cleaned(content)).None?
            && (BraceSpan(Cleaned(content)).None? || parse(BraceSpan(Cleaned(content)).value).None?) ==>
              Recover(parse, content) == FallbackRecord(content)
  {
    var c := Candidates(content);
    if parse(c[0]).None? {
      var c1 := c[1..];
      assert FirstParsed(parse, c) == FirstParsed(parse, c1);
      assert c1[0] == Cleaned(content);
      if parse(c1[0]).None? {
        var c2 := c1[1..];
        assert FirstParsed(parse, c1) == FirstParsed(parse, c2);
        if |c2| == 1 {
          assert c2[0] == BraceSpan(Cleaned(content)).value;
          if parse(c2[0]).None? {
            assert FirstParsed(parse, c2) == FirstParsed(parse, c2[1..]);
          }
        }
      }
    }
  }

  /** `body` followed by a newline is still free of backticks. */
  lemma NewlineKeepsPlain(body: string)
    requires forall i :: 0 <= i < |body| ==> body[i] != '`'
    ensures forall i :: 0 <= i < |body + "\n"| ==> (body + "\n")[i] != '`'
  {
  }

  /** The first replace removes the opening fence and the newline after it. */
  lemma OpeningFencePass(body: string)
    requires |body| > 0 && body[0] == '{'
    requires forall i :: 0 <= i < |body| ==> body[i] != '`'
    ensures StripJsonFences(JsonFence + ("\n" + ((body + "\n") + Fence))) == (body + "\n") + Fence
  {
    var b := body + "\n";
    var y := b + Fence;
    assert y[0] == '{';
    assert AllSpace("\n");
    JsonFenceMatches();
    JsonFenceRemoved("", JsonFence, "\n", y);
    assert "" + (JsonFence + ("\n" + y)) == JsonFence + ("\n" + y);
    NewlineKeepsPlain(body);
    ClosingFenceKept(b);
  }

  /** The two fence replaces turn a fenced body into the body and a newline. */
  lemma FencePasses(body: string)
    requires |body| > 0 && body[0] == '{'
    requires forall i :: 0 <= i < |body| ==> body[i] != '`'
    ensures StripFences(StripJsonFences(JsonFence + ("\n" + ((body + "\n") + Fence)))) == body + "\n"
  {
    OpeningFencePass(body);
    NewlineKeepsPlain(body);
    ClosingFenceRemoved(body + "\n");
  }

  /** After the fence passes, the label pass leaves an object text alone and
      `trim()` drops the newline that followed it. */
  lemma LabelAndTrim(body: string)
    requires |body| >= 2 && body[0] == '{' && body[|body| - 1] == '}'
    ensures Trim(StripJsonLabel(body + "\n")) == body
  {
    var b := body + "\n";
    assert b[0] == '{';
    assert StripJsonLabel(b) == b;
    assert SpaceRun(b) == 0;
    assert b[..|b| - 1] == body;
    assert TrimEnd(b) == TrimEnd(body) == body;
  }

  /** Cleaning a ```json-fenced object gives back exactly the object text. */
  lemma CleanedFenced(body: string)
    requires |body| >= 2 && body[0] == '{' && body[|body| - 1] == '}'
    requires forall i :: 0 <= i < |body| ==> body[i] != '`'
    ensures Cleaned(JsonFence + ("\n" + ((body + "\n") + Fence))) == body
  {
    FencePasses(body);
    LabelAndTrim(body);
  }

  /** A reply wrapped in a ```json fence recovers the same value as the bare
      object text inside it. */
  lemma FencedReplyRecovered(parse: string -> Option<Json>, body: string)
    requires |body| >= 2 && body[0] == '{' && body[|body| - 1] == '}'
    requires forall i :: 0 <= i < |body| ==> body[i] != '`'
    requires parse("```json\n" + body + "\n```").None?
    requires parse(body).Some?
    ensures Recover(parse, "```json\n" + body + "\n```") == parse(body).value
  {
    var fenced := "```json\n" + body + "\n```";
    assert fenced == JsonFence + ("\n" + ((body + "\n") + Fence));
    CleanedFenced(body);
    RecoveryOrder(parse, fenced);
  }
}

=== FILE: result_card.dfy ===
/** The `AnalysisResult` card: its props are spread over built-in sample data,
    the score is tiered after `|| 0`, and each risk item becomes one row. */
module ResultCard {
  import opened Wrappers
  import opened RiskDisplay

  datatype RiskItem = RiskItem(level: string, title: string, description: string, clause: Option<string>)

  /** A prop as the component receives it: not passed at all, passed as
      `undefined`, or passed with a value. Object spread tells the first two apart. */
  datatype Prop<T> = Omitted | Undefined | Given(value: T)

  datatype Props = Props(documentType: Prop<string>, riskScore: Prop<real>,
                         risks: Prop<seq<RiskItem>>, summary: Prop<string>)

  /** The merged `data` object; `None` is `undefined`. */
  datatype CardData = CardData(documentType: Option<string>, riskScore: Option<real>,
                               risks: Option<seq<RiskItem>>, summary: Option<string>)

  const SampleData: CardData := CardData(
    Some("สัญญาเงินกู้"),
    Some(65.0),
    Some([
      RiskItem("high", "อัตราดอกเบี้ยเกินกฎหมาย",
               "ดอกเบี้ยที่ระบุคือ 24% ต่อปี ซึ่งเกินกว่าอัตราสูงสุดที่กฎหมายกำหนด (15% ต่อปี)",
               Some("ข้อ 3.2: ผู้กู้ตกลงชำระดอกเบี้ยในอัตรา 2% ต่อเดือน...")),
      RiskItem("high", "สิทธิ์ยึดทรัพย์ไม่ชอบธรรม",
               "สัญญาระบุว่าสามารถยึดทรัพย์ได้หากค้างชำระเพียง 1 งวด ซึ่งรุนแรงเกินไป",
               Some("ข้อ 7.1: หากผู้กู้ผิดนัดชำระแม้เพียงครั้งเดียว...")),
      RiskItem("medium", "ค่าธรรมเนียมการชำระล่าช้า",
               "มีค่าปรับ 500 บาทต่อวันที่ชำระล่าช้า ซึ่งสูงกว่าปกติ",
               Some("ข้อ 5.4: กรณีชำระล่าช้าจากกำหนด...")),
      RiskItem("low", "ระยะเวลาผ่อนชำระ",
               "ระยะเวลา 12 เดือน เป็นไปตามมาตรฐานทั่วไป",
               None)
    ]),
    Some("สัญญานี้เป็นสัญญากู้ยืมเงินระยะเวลา 12 เดือน วงเงิน 50,000 บาท พบเงื่อนไขที่ควรระวัง 2 ข้อ และมีดอกเบี้ยสูงกว่าที่กฎหมายกำหนด"))

  /** One property of `{...base, ...props}`. */
  function Spread<T>(base: Option<T>, p: Prop<T>): Option<T>
  {
    match p
    case Omitted => base
    case Undefined => None
    case Given(v) => Some(v)
  }

  /** `{ ...sampleData, ...props }`: a prop that is passed replaces the sample
      value (an explicit `undefined` included); an omitted one keeps it. */
  function Merge(props: Props): (d: CardData)
    ensures props.documentType.Omitted? ==> d.documentType == SampleData.documentType
    ensures props.documentType.Undefined? ==> d.documentType.None?
    ensures props.documentType.Given? ==> d.documentType == Some(props.documentType.value)
    ensures props.riskScore.Omitted? ==> d.riskScore == SampleData.riskScore
    ensures props.riskScore.Undefined? ==> d.riskScore.None?
    ensures props.riskScore.Given? ==> d.riskScore == Some(props.riskScore.value)
    ensures props.risks.Omitted? ==> d.risks == SampleData.risks
    ensures props.risks.Undefined? ==> d.risks.None?
    ensures props.risks.Given? ==> d.risks == Some(props.risks.value)
    ensures props.summary.Omitted? ==> d.summary == SampleData.summary
    ensures props.summary.Undefined? ==> d.summary.None?
    ensures props.summary.Given? ==> d.summary == Some(props.summary.value)
  {
    CardData(Spread(SampleData.documentType, props.documentType),
             Spread(SampleData.riskScore, props.riskScore),
             Spread(SampleData.risks, props.risks),
             Spread(SampleData.summary, props.summary))
  }

  /** `data.riskScore || 0`: an undefined or zero score counts as 0. */
  function TierScore(d: CardData): (s: real)
    ensures d.riskScore.None? ==> s == 0.0
    ensures d.riskScore.Some? ==> s == d.riskScore.value
  {
    if d.riskScore.Some? && d.riskScore.value != 0.0 then d.riskScore.value else 0.0
  }

  /** One rendered risk item. `quote` is the clause when it is shown. */
  datatype RiskRow = RiskRow(colors: RiskColors, icon: Icon, title: string, badge: string,
                             description: string, quote: Option<string>)

  function RowFor(item: RiskItem): (row: RiskRow)
    ensures row.icon == CheckCircle <==> item.level == "low"
    ensures row.colors == GetRiskColor(item.level) && row.badge == GetRiskLabel(item.level)
    ensures row.title == item.title && row.description == item.description
    ensures row.quote.Some? <==> item.clause.Some? && |item.clause.value| > 0
    ensures row.quote.Some? ==> row.quote == item.clause
  {
    var quote := if item.clause.Some? && |item.clause.value| > 0 then item.clause else None;
    RiskRow(GetRiskColor(item.level), RiskIcon(item.level), item.title,
            GetRiskLabel(item.level), item.description, quote)
  }

  /** `risks.map(...)`: one row per item, in the order given, none re-sorted. */
  function RiskRows(items: seq<RiskItem>): (rows: seq<RiskRow>)
    ensures |rows| == |items|
    ensures forall i :: 0 <= i < |items| ==> rows[i] == RowFor(items[i])
  {
    if |items| == 0 then []
    else [RowFor(items[0])] + RiskRows(items[1..])
  }

  /** What the card shows. */
  datatype Card = Card(documentType: Option<string>, score: Option<real>, scoreColor: string,
                       scoreLabel: string, summary: Option<string>, rows: seq<RiskRow>)

  function Render(props: Props): (c: Card)
    ensures var d := Merge(props);
            && c.documentType == d.documentType && c.summary == d.summary
            && c.score == d.riskScore
            && c.scoreColor == GetScoreColor(TierScore(d))
            && c.scoreLabel == GetScoreLabel(TierScore(d))
            && (d.risks.None? ==> c.rows == [])
            && (d.risks.Some? ==> c.rows == RiskRows(d.risks.value))
  {
    var d := Merge(props);
    Card(d.documentType, d.riskScore, GetScoreColor(TierScore(d)), GetScoreLabel(TierScore(d)),
         d.summary, if d.risks.Some? then RiskRows(d.risks.value) else [])
  }

  /** A falsy score, whether left undefined or given as 0, is shown in the low tier. */
  lemma FalsyScoreIsLowTier(props: Props)
    requires props.riskScore.Undefined? || props.riskScore == Given(0.0)
    ensures Render(props).scoreColor == "text-success"
    ensures Render(props).scoreLabel == LowScoreLabel
  {
  }

  /** With no props the card shows the sample: a caution score of 65 and its four
      rows in order, only the last with the low-level icon and without a quoted clause. */
  lemma SampleCard()
    ensures var c := Render(Props(Omitted, Omitted, Omitted, Omitted));
            && c.score == Some(65.0) && c.scoreLabel == CautionText
            && |c.rows| == 4
            && c.rows[0].icon == AlertTriangle && c.rows[1].icon == AlertTriangle
            && c.rows[2].icon == AlertTriangle && c.rows[3].icon == CheckCircle
            && c.rows[0].quote.Some? && c.rows[1].quote.Some? && c.rows[2].quote.Some?
            && c.rows[3].quote.None?
  {
    var items := SampleData.risks.value;
    assert items[3].level == "low" && items[3].clause.None?;
    assert items[0].level == "high" && items[1].level == "high" && items[2].level == "medium";
  }
}

=== FILE: risk_display.dfy ===
/** The label and colour functions of the result views. `AnalysisResult.tsx`
    and `Demo.tsx` each declare an identical copy; they are modelled once here. */
module RiskDisplay {

  /** The class names a risk item is drawn with. */
  datatype RiskColors = RiskColors(bg: string, border: string, text: string, badge: string)

  /** The icon shown beside a risk item. */
  datatype Icon = CheckCircle | AlertTriangle

  /** The levels the provider is asked to use; any other string may still arrive. */
  predicate IsRiskLevel(level: string)
  {
    level == "high" || level == "medium" || level == "low"
  }

  const DestructiveColors: RiskColors :=
    RiskColors("bg-destructive/10", "border-destructive/20", "text-destructive",
               "bg-destructive text-destructive-foreground")
  const WarningColors: RiskColors :=
    RiskColors("bg-warning/10", "border-warning/20", "text-warning", "bg-warning text-warning-foreground")
  const SuccessColors: RiskColors :=
    RiskColors("bg-success/10", "border-success/20", "text-success", "bg-success text-success-foreground")
  const MutedColors: RiskColors :=
    RiskColors("bg-muted", "border-border", "text-muted-foreground", "bg-muted text-muted-foreground")

  /** `getRiskColor`: the whole destructive, warning and success class sets for
      the three levels, told apart by their text class, and the muted set for
      anything else. */
  function GetRiskColor(level: string): (r: RiskColors)
    ensures level == "high" <==> r == DestructiveColors
    ensures level == "medium" <==> r == WarningColors
    ensures level == "low" <==> r == SuccessColors
    ensures !IsRiskLevel(level) <==> r == MutedColors
    ensures level == "high" <==> r.text == "text-destructive"
    ensures level == "medium" <==> r.text == "text-warning"
    ensures level == "low" <==> r.text == "text-success"
  {
    match level
    case "high" => DestructiveColors
    case "medium" => WarningColors
    case "low" => SuccessColors
    case _ => MutedColors
  }

  const HighRiskBadge: string := "เสี่ยงสูง"
  const CautionText: string := "ควรระวัง"
  const NormalBadge: string := "ปกติ"

  /** `getRiskLabel`: a badge text for each of the three levels, "" otherwise. */
  function GetRiskLabel(level: string): (r: string)
    ensures r == "" <==> !IsRiskLevel(level)
  {
    match level
    case "high" => HighRiskBadge
    case "medium" => CautionText
    case "low" => NormalBadge
    case _ => ""
  }

  /** The three levels carry three different badges. */
  lemma RiskLabelsDistinct(a: string, b: string)
    requires IsRiskLevel(a) && IsRiskLevel(b)
    ensures GetRiskLabel(a) == GetRiskLabel(b) ==> a == b
  {
  }

  /** The icon choice: CheckCircle for a low item, AlertTriangle for any other level. */
  function RiskIcon(level: string): (r: Icon)
    ensures r == CheckCircle <==> level == "low"
  {
    if level == "low" then CheckCircle else AlertTriangle
  }

  const HighScoreLabel: string := "ความเสี่ยงสูง"
  const LowScoreLabel: string := "ความเสี่ยงต่ำ"

  /** `getScoreColor`: 70 and above, 40 up to 70, below 40. */
  function GetScoreColor(score: real): (r: string)
    ensures r == "text-destructive" <==> score >= 70.0
    ensures r == "text-warning" <==> 40.0 <= score < 70.0
    ensures r == "text-success" <==> score < 40.0
  {
    if score >= 70.0 then "text-destructive"
    else if score >= 40.0 then "text-warning"
    else "text-success"
  }

  /** `getScoreLabel`, on the same thresholds. */
  function GetScoreLabel(score: real): (r: string)
    ensures r == HighScoreLabel <==> score >= 70.0
    ensures r == CautionText <==> 40.0 <= score < 70.0
    ensures r == LowScoreLabel <==> score < 40.0
  {
    if score >= 70.0 then HighScoreLabel
    else if score >= 40.0 then CautionText
    else LowScoreLabel
  }

  /** The level whose tone a score is drawn in. */
  function ScoreLevel(score: real): string
  {
    if score >= 70.0 then "high" else if score >= 40.0 then "medium" else "low"
  }

  /** Colour and label always pick the same tier: two scores share a colour
      exactly when they share a label. */
  lemma ScoreColorMatchesLabel(s: real, t: real)
    ensures GetScoreColor(s) == GetScoreColor(t) <==> GetScoreLabel(s) == GetScoreLabel(t)
  {
  }

  /** A score is drawn in the text class of the risk level of its tier. */
  lemma ScoreColorIsLevelTone(score: real)
    ensures GetScoreColor(score) == GetRiskColor(ScoreLevel(score)).text
  {
  }
}

=== FILE: text_ops.dfy ===
/** The string operations the edge function applies to the provider's reply and
    to the uploaded data URI: `trim`, the three regular-expression replaces, the
    greedy `{...}` match, `includes`/`split` on "base64," and the decimal form of
    an HTTP status. Strings are sequences of characters; a character outside the
    Basic Multilingual Plane counts as one, where JavaScript counts two. */
module TextOps {
  import opened Wrappers

  /** The characters of JavaScript's `\s` class, which are also the characters
      `String.prototype.trim` removes (WhiteSpace and LineTerminator). */
  predicate IsJsSpace(c: char)
  {
    || c == '\t' || c == '\n' || c == '\U{000B}' || c == '\U{000C}' || c == '\r'
    || c == ' ' || c == '\U{00A0}' || c == '\U{1680}'
    || ('\U{2000}' <= c <= '\U{200A}')
    || c == '\U{2028}' || c == '\U{2029}' || c == '\U{202F}' || c == '\U{205F}'
    || c == '\U{3000}' || c == '\U{FEFF}'
  }

  /** Length of the longest all-space prefix: what a greedy `\s*` consumes. */
  function SpaceRun(s: string): (n: nat)
    ensures n <= |s|
    ensures forall i :: 0 <= i < n ==> IsJsSpace(s[i])
    ensures n < |s| ==> !IsJsSpace(s[n])
  {
    if |s| > 0 && IsJsSpace(s[0]) then 1 + SpaceRun(s[1..]) else 0
  }

  // ---------------------------------------------------------------- trim

  /** The suffix of `s` after its longest all-space prefix. */
  function TrimStart(s: string): (r: string)
    ensures r == s[SpaceRun(s)..]
    ensures |r| == 0 || !IsJsSpace(r[0])
  {
    s[SpaceRun(s)..]
  }

  function TrimEnd(s: string): (r: string)
    ensures |r| <= |s| && r == s[..|r|]
    ensures forall k :: |r| <= k < |s| ==> IsJsSpace(s[k])
    ensures |r| == 0 || !IsJsSpace(r[|r| - 1])
  {
    if |s| > 0 && IsJsSpace(s[|s| - 1]) then TrimEnd(s[..|s| - 1]) else s
  }

  /** `s.trim()`: the part of `s` between its leading and its trailing white space. */
  function Trim(s: string): (r: string)
    ensures |r| == 0 || (!IsJsSpace(r[0]) && !IsJsSpace(r[|r| - 1]))
    ensures exists i, j :: 0 <= i <= j <= |s| && r == s[i..j]
                           && (forall k :: 0 <= k < i ==> IsJsSpace(s[k]))
                           && (forall k :: j <= k < |s| ==> IsJsSpace(s[k]))
  {
    var t := TrimStart(s);
    var r := TrimEnd(t);
    assert r == s[SpaceRun(s)..SpaceRun(s) + |r|];
    r
  }

  // ------------------------------------------------------ fences and labels

  /** Three backticks at the start of `s`. */
  predicate StartsWithFence(s: string)
  {
    |s| >= 3 && s[0] == '`' && s[1] == '`' && s[2] == '`'
  }

  /** The word "json" in any letter case at the start of `s` (the `i` flag). */
  predicate StartsWithJsonWord(s: string)
  {
    && |s| >= 4
    && (s[0] == 'j' || s[0] == 'J') && (s[1] == 's' || s[1] == 'S')
    && (s[2] == 'o' || s[2] == 'O') && (s[3] == 'n' || s[3] == 'N')
  }

  const Fence: string := "```"
  const JsonFence: string := "```json"

  // A match of /```json\s*/i at the start of `s`.
  predicate StartsWithJsonFence(s: string)
  {
    StartsWithFence(s) && StartsWithJsonWord(s[3..])
  }

  // `s.replace(/```json\s*/gi, '')`: every match, scanned left to right without
  // overlap, is removed together with the white space after it.
  function StripJsonFences(s: string): (r: string)
    ensures |r| <= |s|
    decreases |s|
  {
    if |s| == 0 then s
    else if StartsWithJsonFence(s) then StripJsonFences(s[7 + SpaceRun(s[7..])..])
    else [s[0]] + StripJsonFences(s[1..])
  }

  // `s.replace(/```\s*/g, '')`.
  function StripFences(s: string): (r: string)
    ensures |r| <= |s|
    decreases |s|
  {
    if |s| == 0 then s
    else if StartsWithFence(s) then StripFences(s[3 + SpaceRun(s[3..])..])
    else [s[0]] + StripFences(s[1..])
  }

  // `s.replace(/^["']?json\s*/i, '')`: one leading label "json", optionally
  // preceded by a single or double quote, with the white space after it.
  function StripJsonLabel(s: string): (r: string)
    ensures |r| <= |s| && r == s[|s| - |r|..]
    ensures (!(|s| > 0 && (s[0] == '"' || s[0] == '\'') && StartsWithJsonWord(s[1..]))
             && !StartsWithJsonWord(s)) ==> r == s
  {
    if |s| > 0 && (s[0] == '"' || s[0] == '\'') && StartsWithJsonWord(s[1..]) then
      s[5 + SpaceRun(s[5..])..]
    else if StartsWithJsonWord(s) then
      s[4 + SpaceRun(s[4..])..]
    else
      s
  }

  /** What the label replace removes: a quote and `json` (any case), or a bare
      `json`, each with the white space after it, and nothing more. */
  lemma LabelRemoved(s: string)
    ensures |s| > 0 && (s[0] == '"' || s[0] == '\'') && StartsWithJsonWord(s[1..]) ==>
              StripJsonLabel(s) == TrimStart(s[5..])
    ensures StartsWithJsonWord(s) ==> StripJsonLabel(s) == TrimStart(s[4..])
  {
    if |s| > 0 && (s[0] == '"' || s[0] == '\'') && StartsWithJsonWord(s[1..]) {
      assert s[5..][SpaceRun(s[5..])..] == s[5 + SpaceRun(s[5..])..];
    } else if StartsWithJsonWord(s) {
      assert s[4..][SpaceRun(s[4..])..] == s[4 + SpaceRun(s[4..])..];
    }
  }

  /** Text without a backtick passes through the ```` ```json ```` replace
      unchanged and leaves the scan of what follows it undisturbed. */
  lemma {:induction false} StripJsonFencesSkipsPlain(x: string, y: string)
    requires forall i :: 0 <= i < |x| ==> x[i] != '`'
    ensures StripJsonFences(x + y) == x + StripJsonFences(y)
  {
    if |x| > 0 {
      assert (x + y)[0] == x[0];
      assert (x + y)[1..] == x[1..] + y;
      StripJsonFencesSkipsPlain(x[1..], y);
    } else {
      assert x + y == y;
    }
  }

  /** Text without a backtick passes through the plain ```` ``` ```` replace
      unchanged and leaves the scan of what follows it undisturbed. */
  lemma {:induction false} StripFencesSkipsPlain(x: string, y: string)
    requires forall i :: 0 <= i < |x| ==> x[i] != '`'
    ensures StripFences(x + y) == x + StripFences(y)
  {
    if |x| > 0 {
      assert (x + y)[0] == x[0];
      assert (x + y)[1..] == x[1..] + y;
      StripFencesSkipsPlain(x[1..], y);
    } else {
      assert x + y == y;
    }
  }

  /** Every character of `w` is white space. */
  predicate AllSpace(w: string)
  {
    forall i :: 0 <= i < |w| ==> IsJsSpace(w[i])
  }

  /** `\s*` after a fence consumes exactly a whitespace run that is followed
      by a non-space character or by the end. */
  lemma SpaceRunOf(w: string, y: string)
    requires AllSpace(w)
    requires |y| == 0 || !IsJsSpace(y[0])
    ensures SpaceRun(w + y) == |w|
  {
    var s := w + y;
    assert forall i :: 0 <= i < |w| ==> s[i] == w[i];
    assert |y| > 0 ==> s[|w|] == y[0];
  }

  /** The lower-case fence text is itself a match of the ```` ```json ```` pattern. */
  lemma JsonFenceMatches()
    ensures |JsonFence| == 7 && StartsWithJsonFence(JsonFence)
  {
  }

  /** A ```` ```json ```` fence at the start, in any letter case, is removed
      together with all the white space that follows it. */
  lemma JsonFenceAtStart(f: string, w: string, y: string)
    requires |f| == |JsonFence| && StartsWithJsonFence(f)
    requires AllSpace(w)
    requires |y| == 0 || !IsJsSpace(y[0])
    ensures StripJsonFences(f + (w + y)) == StripJsonFences(y)
  {
    var t := w + y;
    var s := f + t;
    assert s[..7] == f;
    assert StartsWithJsonFence(s);
    assert s[7..] == t;
    SpaceRunOf(w, y);
    assert s[7 + |w|..] == y;
  }

  /** A ```` ```json ```` fence (any letter case) after backtick-free text is
      removed together with all the white space that follows it, and the scan
      carries on after it. */
  lemma JsonFenceRemoved(x: string, f: string, w: string, y: string)
    requires forall i :: 0 <= i < |x| ==> x[i] != '`'
    requires |f| == |JsonFence| && StartsWithJsonFence(f)
    requires AllSpace(w)
    requires |y| == 0 || !IsJsSpace(y[0])
    ensures StripJsonFences(x + (f + (w + y))) == x + StripJsonFences(y)
  {
    StripJsonFencesSkipsPlain(x, f + (w + y));
    JsonFenceAtStart(f, w, y);
  }

  /** A plain ```` ``` ```` fence at the start is removed together with all the
      white space that follows it. */
  lemma FenceAtStart(w: string, y: string)
    requires AllSpace(w)
    requires |y| == 0 || !IsJsSpace(y[0])
    ensures StripFences(Fence + (w + y)) == StripFences(y)
  {
    var t := w + y;
    var s := Fence + t;
    assert StartsWithFence(s);
    assert s[3..] == t;
    SpaceRunOf(w, y);
    assert s[3 + |w|..] == y;
  }

  /** A plain ```` ``` ```` fence after backtick-free text is removed together
      with all the white space that follows it, and the scan carries on after it. */
  lemma FenceRemoved(x: string, w: string, y: string)
    requires forall i :: 0 <= i < |x| ==> x[i] != '`'
    requires AllSpace(w)
    requires |y| == 0 || !IsJsSpace(y[0])
    ensures StripFences(x + (Fence + (w + y))) == x + StripFences(y)
  {
    StripFencesSkipsPlain(x, Fence + (w + y));
    FenceAtStart(w, y);
  }

  /** A closing fence after backtick-free text survives the ```` ```json ```` pass. */
  lemma ClosingFenceKept(b: string)
    requires forall i :: 0 <= i < |b| ==> b[i] != '`'
    ensures StripJsonFences(b + Fence) == b + Fence
  {
    StripJsonFencesSkipsPlain(b, Fence);
    ShortTextKept(Fence);
  }

  /** Text shorter than a ```` ```json ```` fence passes through its replace unchanged. */
  lemma {:induction false} ShortTextKept(t: string)
    requires |t| < |JsonFence|
    ensures StripJsonFences(t) == t
  {
    if |t| > 0 {
      assert !StartsWithJsonFence(t);
      ShortTextKept(t[1..]);
      assert t == [t[0]] + t[1..];
    }
  }

  /** A closing fence after backtick-free text is removed by the plain fence pass. */
  lemma ClosingFenceRemoved(b: string)
    requires forall i :: 0 <= i < |b| ==> b[i] != '`'
    ensures StripFences(b + Fence) == b
  {
    StripFencesSkipsPlain(b, Fence);
    assert StripFences(Fence) == "";
  }

  /** No three backticks in a row anywhere in `r`. */
  predicate FenceFree(r: string)
  {
    forall i :: 0 <= i < |r| ==> !StartsWithFence(r[i..])
  }

  /** A slice of fence-free text is fence-free. */
  lemma FenceFreeSlice(r: string, i: nat, j: nat)
    requires FenceFree(r) && i <= j <= |r|
    ensures FenceFree(r[i..j])
  {
    forall k | 0 <= k < j - i ensures !StartsWithFence(r[i..j][k..]) {
      assert !StartsWithFence(r[i + k..]);
      if j - i - k >= 3 {
        assert r[i..j][k..][..3] == r[i + k..][..3];
      }
    }
  }

  /** Text with no fence anywhere passes through the plain fence replace
      unchanged: single and double backticks are kept. */
  lemma {:induction false} FenceFreeKept(s: string)
    requires FenceFree(s)
    ensures StripFences(s) == s
    decreases |s|
  {
    if |s| > 0 {
      assert !StartsWithFence(s[0..]);
      assert s[0..] == s;
      FenceFreeSlice(s, 1, |s|);
      assert s[1..|s|] == s[1..];
      FenceFreeKept(s[1..]);
      assert s == [s[0]] + s[1..];
    }
  }

  /** No ```` ```json ```` fence (in any letter case) anywhere in `r`. */
  predicate JsonFenceFree(r: string)
  {
    forall i :: 0 <= i < |r| ==> !StartsWithJsonFence(r[i..])
  }

  /** Text with no ```` ```json ```` fence anywhere passes through that replace
      unchanged: other backticks, bare fences included, are kept. */
  lemma {:induction false} JsonFenceFreeKept(s: string)
    requires JsonFenceFree(s)
    ensures StripJsonFences(s) == s
    decreases |s|
  {
    if |s| > 0 {
      assert !StartsWithJsonFence(s[0..]);
      assert s[0..] == s;
      var t := s[1..];
      forall i | 0 <= i < |t| ensures !StartsWithJsonFence(t[i..]) {
        assert t[i..] == s[i + 1..];
      }
      JsonFenceFreeKept(t);
      assert s == [s[0]] + t;
    }
  }

  /** Text in which no match of the plain fence pattern begins (single or
      double backticks allowed) is kept, and the scan of what follows it is
      undisturbed: with `FenceAtStart` this fixes the replace on every input. */
  lemma {:induction false} FenceScanSkips(x: string, y: string)
    requires forall i :: 0 <= i < |x| ==> !StartsWithFence((x + y)[i..])
    ensures StripFences(x + y) == x + StripFences(y)
    decreases |x|
  {
    if |x| > 0 {
      assert (x + y)[0..] == x + y;
      assert (x + y)[1..] == x[1..] + y;
      forall i | 0 <= i < |x[1..]| ensures !StartsWithFence((x[1..] + y)[i..]) {
        assert (x[1..] + y)[i..] == (x + y)[i + 1..];
      }
      FenceScanSkips(x[1..], y);
      assert x == [x[0]] + x[1..];
    } else {
      assert x + y == y;
    }
  }

  /** The same for the ```` ```json ```` replace: text in which no match of
      that pattern begins is kept and the scan of the rest is undisturbed;
      with `JsonFenceAtStart` this fixes the replace on every input. */
  lemma {:induction false} JsonFenceScanSkips(x: string, y: string)
    requires forall i :: 0 <= i < |x| ==> !StartsWithJsonFence((x + y)[i..])
    ensures StripJsonFences(x + y) == x + StripJsonFences(y)
    decreases |x|
  {
    if |x| > 0 {
      assert (x + y)[0..] == x + y;
      assert (x + y)[1..] == x[1..] + y;
      forall i | 0 <= i < |x[1..]| ensures !StartsWithJsonFence((x[1..] + y)[i..]) {
        assert (x[1..] + y)[i..] == (x + y)[i + 1..];
      }
      JsonFenceScanSkips(x[1..], y);
      assert x == [x[0]] + x[1..];
    } else {
      assert x + y == y;
    }
  }

  /** A fence after a stray inline backtick is still removed with the white
      space after it: "`a```  b" becomes "`ab". */
  lemma StrayBacktickFenceRemoved()
    ensures StripFences("`a" + (Fence + ("  " + "b"))) == "`ab"
  {
    var y := Fence + ("  " + "b");
    assert ("`a" + y)[0..] == "`a" + y;
    assert ("`a" + y)[1..] == "a" + y;
    FenceScanSkips("`a", y);
    assert AllSpace("  ");
    FenceAtStart("  ", "b");
    assert StripFences("b") == "b";
  }

  /** The fence replace leaves no fence behind: a backtick it keeps is never
      followed by a removed fence, so removals cannot splice a new one together. */
  lemma {:induction false} FencesGone(s: string)
    ensures FenceFree(StripFences(s))
    decreases |s|
  {
    if |s| == 0 {
    } else if StartsWithFence(s) {
      FencesGone(s[3 + SpaceRun(s[3..])..]);
    } else {
      var t := s[1..];
      FencesGone(t);
      var rest := StripFences(t);
      var r := StripFences(s);
      assert r == [s[0]] + rest;
      // The head of `rest` cannot complete a fence with a kept backtick.
      assert !(s[0] == '`' && |rest| >= 2 && rest[0] == '`' && rest[1] == '`') by {
        if s[0] == '`' && |t| > 0 {
          assert !StartsWithFence(t);
          assert rest == [t[0]] + StripFences(t[1..]);
          if t[0] == '`' && |t| > 1 {
            var u := t[1..];
            assert u[0] == s[2] && s[2] != '`';
            assert !StartsWithFence(u);
            assert StripFences(u) == [u[0]] + StripFences(u[1..]);
            assert rest[1] == u[0];
          }
        }
      }
      forall i | 0 <= i < |r| ensures !StartsWithFence(r[i..]) {
        if i > 0 {
          assert r[i..] == rest[i - 1..];
        }
      }
    }
  }

  // ---------------------------------------------------------------- braces

  /** Index of the first occurrence of `c`. */
  function IndexOf(s: string, c: char): (r: Option<nat>)
    ensures r.None? <==> c !in s
    ensures r.Some? ==> r.value < |s| && s[r.value] == c && c !in s[..r.value]
  {
    if |s| == 0 then None
    else if s[0] == c then Some(0)
    else
      match IndexOf(s[1..], c)
      case None => None
      case Some(i) => assert s[1..][..i] == s[1..i + 1]; Some(i + 1)
  }

  /** Index of the last occurrence of `c`. */
  function LastIndexOf(s: string, c: char): (r: Option<nat>)
    ensures r.None? <==> c !in s
    ensures r.Some? ==> r.value < |s| && s[r.value] == c && c !in s[r.value + 1..]
  {
    if |s| == 0 then None
    else if s[|s| - 1] == c then Some(|s| - 1)
    else
      match LastIndexOf(s[..|s| - 1], c)
      case None => None
      case Some(i) => Some(i)
  }

  /** The match of the pattern `\{[\s\S]*\}`: from the first '{' to the last '}', which must
      come after it. It exists exactly when some '}' follows the first '{'. */
  function BraceSpan(s: string): (r: Option<string>)
    ensures r.Some? <==> exists j :: 0 <= j < |s| && s[j] == '}' && '{' in s[..j]
    ensures r.Some? ==> exists i, j :: 0 <= i < j < |s| && r.value == s[i..j + 1]
                          && s[i] == '{' && s[j] == '}'
                          && '{' !in s[..i] && '}' !in s[j + 1..]
  {
    match IndexOf(s, '{')
    case None => None
    case Some(i) =>
      match LastIndexOf(s, '}')
      case None => None
      case Some(j) => if i < j then Some(s[i..j + 1]) else None
  }

  // ------------------------------------------------------ data URI payload

  const Base64Marker: string := "base64,"

  predicate OccursAt(s: string, pat: string, k: nat)
  {
    k + |pat| <= |s| && s[k..k + |pat|] == pat
  }

  /** `s.indexOf(pat)`, searching from position `from`. */
  function FindFrom(s: string, pat: string, from: nat): (r: Option<nat>)
    requires |pat| > 0
    ensures r.Some? ==> from <= r.value && OccursAt(s, pat, r.value)
                        && forall k :: from <= k < r.value ==> !OccursAt(s, pat, k)
    ensures r.None? ==> forall k :: from <= k ==> !OccursAt(s, pat, k)
    decreases |s| - from
  {
    if from + |pat| > |s| then None
    else if s[from..from + |pat|] == pat then Some(from)
    else FindFrom(s, pat, from + 1)
  }

  /** `s.split("base64,")[1]` for a string that contains the marker: the text
      between its first occurrence and the next one (or the end). */
  function SecondPiece(s: string, i: nat): (r: string)
    requires OccursAt(s, Base64Marker, i)
  {
    var rest := s[i + |Base64Marker|..];
    match FindFrom(rest, Base64Marker, 0)
    case None => rest
    case Some(j) => rest[..j]
  }

  /** `s.includes("base64,") ? s.split("base64,")[1] : s`. */
  function Base64Payload(s: string): (r: string)
    ensures FindFrom(s, Base64Marker, 0).None? ==> r == s
    ensures FindFrom(s, Base64Marker, 0).Some? ==>
              var i := FindFrom(s, Base64Marker, 0).value;
              r <= s[i + |Base64Marker|..]
              && (forall k :: !OccursAt(r, Base64Marker, k))
              && (|r| == |s| - i - |Base64Marker| || OccursAt(s[i + |Base64Marker|..], Base64Marker, |r|))
  {
    match FindFrom(s, Base64Marker, 0)
    case None => s
    case Some(i) =>
      var rest := s[i + |Base64Marker|..];
      var r := SecondPiece(s, i);
      assert forall k :: !OccursAt(r, Base64Marker, k) by {
        forall k: nat | OccursAt(r, Base64Marker, k) ensures false {
          assert r[k..k + 7] == rest[k..k + 7];
          assert OccursAt(rest, Base64Marker, k);
        }
      }
      r
  }

  /** An occurrence of the marker needs a comma six characters on. */
  lemma NoMarkerWithoutComma(t: string, k: nat)
    requires k + 6 < |t| ==> t[k + 6] != ','
    ensures !OccursAt(t, Base64Marker, k)
  {
  }

  /** A data URI "data:<mime>;base64,<data>" yields exactly its data part. */
  lemma DataUriPayload(mime: string, data: string)
    requires ',' !in mime && ',' !in data
    ensures Base64Payload("data:" + mime + ";base64," + data) == data
  {
    var s := "data:" + mime + ";base64," + data;
    var p := |mime| + 6;
    assert s[p..p + 7] == Base64Marker;
    forall k: nat | k < p ensures !OccursAt(s, Base64Marker, k) {
      assert s[k + 6] != ',' by {
        if k + 6 < 5 + |mime| {
          assert s[k + 6] == mime[k + 1];
        }
      }
      NoMarkerWithoutComma(s, k);
    }
    var found := FindFrom(s, Base64Marker, 0);
    assert OccursAt(s, Base64Marker, p);
    assert found.Some?;
    assert found.value >= p;
    assert found.value <= p;
    assert s[p + 7..] == data;
    forall k: nat ensures !OccursAt(data, Base64Marker, k) {
      if k + 6 < |data| {
        assert data[k + 6] in data;
      }
      NoMarkerWithoutComma(data, k);
    }
  }

  // ---------------------------------------------------------------- numbers

  predicate IsDigits(r: string)
  {
    forall i :: 0 <= i < |r| ==> '0' <= r[i] <= '9'
  }

  /** The number a string of decimal digits denotes. */
  function DigitsValue(r: string): nat
    requires IsDigits(r)
  {
    if |r| == 0 then 0
    else 10 * DigitsValue(r[..|r| - 1]) + ((r[|r| - 1] as int) - ('0' as int))
  }

  /** The decimal digits of `n`, as a template literal prints an integer:
      no leading zero except for 0 itself. */
  function Decimal(n: nat): (r: string)
    ensures |r| > 0 && IsDigits(r)
    ensures r[0] == '0' <==> n == 0
  {
    var d := ['0', '1', '2', '3', '4', '5', '6', '7', '8', '9'][n % 10];
    if n < 10 then [d] else Decimal(n / 10) + [d]
  }

  /** The digits of `n` denote `n`: the status in a provider error message is the
      status received. */
  lemma {:induction false} DecimalValue(n: nat)
    ensures DigitsValue(Decimal(n)) == n
  {
    var r := Decimal(n);
    if n >= 10 {
      DecimalValue(n / 10);
      assert r[..|r| - 1] == Decimal(n / 10);
    }
  }
}

=== FILE: wrappers.dfy ===
/** Optional values: `None` stands for JavaScript's `undefined`/`null` or a
    failed attempt, `Some(v)` for a present value. */
module Wrappers {

  datatype Option<+T> = None | Some(value: T)

  function Min(a: nat, b: nat): nat
  {
    if a <= b then a else b
  }
}
